=== FILE: README.md ===
# GalleryApp core, modelled in Dafny

GalleryApp is an iOS photo gallery. It shows twenty Picsum pictures. A
picture is looked up in three tiers: a process-wide in-memory cache, then a
disk cache, then the network. The pieces modelled here are:

- **ImageCacheManager** (`image_cache_manager.dfy`, with the value-level
  definitions in `cache_spec.dfy`). It owns a directory of `<key>.jpg` files
  and a persisted, duplicate-free array of keys (the index).
  - Saving writes the file and appends the key to the index.
  - Loading and existence checks look at the directory only.
  - On start-up, files older than seven days are removed. The keys of those
    files (the file name with ".jpg" stripped) are then dropped from the
    index.
  - After each download, a cache over 100 MiB is cut to at most 75 MiB
    when no file-system call throws. The oldest files go first. Size
    eviction never touches the index.
  - Clearing the cache empties the index only when every removal succeeded.
  - File-system failures (the directory listing, the second listing of the
    size eviction, attribute reads, removals, reads, writes) are explicit
    inputs, and the model follows each catch block of the Swift code.
- **GalleryModel / GalleryImage** (`gallery_model.dfy`). An image's URL is
  `https://picsum.photos/<w>/<h>?random=<id>`. `generateImages` produces the
  ids "1" through "count". Integer rendering and parsing are in
  `decimal.dfy`.
- **GalleryViewModel** (`gallery_view_model.dfy`). It has bounds-checked
  accessors, loads twenty images and notifies its optional delegate.
- **NetworkManager** (`network_manager.dfy`). The path-update handler records
  connectivity and the first interface. It posts a notification only when
  connectivity changes.
- **GalleryViewController** (`gallery_view_controller.dfy`). This covers
  `UIImageView.loadImage(from:)`, the tiered lookup with its placeholder and
  error symbols, and `networkStatusChanged`.

Things that change state are classes whose methods are proved against
specification functions. The main lemmas are these:

- the removal passes delete exactly what their specification functions
  select;
- fault-free size eviction brings the cache to at most 75 MiB, and evicts
  the oldest files first and no more than needed;
- image URLs and ids round-trip;
- a second lookup of a URL that once showed a picture is a memory hit.

The index is not kept in step with the directory. Size eviction and failed
clears leave keys whose files are gone. The model keeps that behaviour.

## Model

| member | source | states |
|---|---|---|
| Decimal.IntToString | GalleryApp/Models/GalleryModel.swift:30 | rendering an Int ("\(i)") gives a non-empty string of digits and a minus sign |
| Decimal.NatToString | GalleryApp/Models/GalleryModel.swift:30 | a natural number renders as digits with no leading zero except for 0 itself |
| Decimal.ParseNatToString | GalleryApp/Models/GalleryModel.swift:30 | reading back a rendered natural number gives that number |
| Decimal.ParseIntToString | GalleryApp/Models/GalleryModel.swift:30 | reading back a rendered Int gives that Int, sign included |
| Decimal.IntToStringInjective | GalleryApp/Models/GalleryModel.swift:29-31 | different Ints render to different strings |
| Models.ImageURL | GalleryApp/Models/GalleryModel.swift:20 | the URL is a Picsum address that ends with the image's id |
| Models.NewImage | GalleryApp/Models/GalleryModel.swift:16-21 | an image keeps its id and dimensions (400 by default), and its URL parses back to exactly those dimensions and that id |
| Models.ImageURLRoundTrip | GalleryApp/Models/GalleryModel.swift:20 | the Picsum URL built from width, height and id parses back to the same three values |
| Models.GeneratedImages | GalleryApp/Models/GalleryModel.swift:27-33 | generating count images gives exactly count images; image i has the id "i+1" and the default 400x400 size |
| Models.GeneratedImageAt | GalleryApp/Models/GalleryModel.swift:27-33 | image i's id reads back as the number i+1, and its URL carries the default size and that id |
| Models.GeneratedIdsDistinct | GalleryApp/Models/GalleryModel.swift:29-31 | the generated images have pairwise distinct ids |
| Models.GalleryModel.constructor | GalleryApp/Models/GalleryModel.swift:25 | a new model holds no images |
| Models.GalleryModel.GenerateImages | GalleryApp/Models/GalleryModel.swift:27-33 | the loop leaves the images "1" through "count", in order, replacing what was there |
| ViewModels.GalleryViewModel.constructor | GalleryApp/ViewModels/GalleryViewModel.swift:19-20 | a fresh model with no images and no delegate |
| ViewModels.GalleryViewModel.LoadImages | GalleryApp/ViewModels/GalleryViewModel.swift:23-26 | the model then holds the twenty generated images, and didLoadImages reaches the delegate if there is one |
| ViewModels.GalleryViewModel.GetImageCount | GalleryApp/ViewModels/GalleryViewModel.swift:28-30 | the count is the number of images in the model |
| ViewModels.GalleryViewModel.GetImage | GalleryApp/ViewModels/GalleryViewModel.swift:32-35 | nil exactly when the index is negative or past the end, otherwise the image at that index |
| ViewModels.GalleryViewModel.GetImageURL | GalleryApp/ViewModels/GalleryViewModel.swift:37-39 | nil exactly when the index is out of range, otherwise that image's URL |
| ViewModels.GalleryViewModel.DidSelectImage | GalleryApp/ViewModels/GalleryViewModel.swift:41-43 | the images are unchanged and didSelectImage(at:) reaches the delegate if there is one |
| ViewModels.LoadedImagesEnds | GalleryApp/ViewModels/GalleryViewModel.swift:23-25 | loading gives twenty images whose ids run from "1" to "20" |
| Network.Description | GalleryApp/Utilities/NetworkManager.swift:62-78 | every interface type has its own description text, so the text identifies the type |
| Network.FirstInterface | GalleryApp/Utilities/NetworkManager.swift:35 | no connection type when the path has no interfaces, otherwise the first one |
| Network.NetworkManager.constructor | GalleryApp/Utilities/NetworkManager.swift:20-21 | starts connected with no connection type and nothing posted |
| Network.NetworkManager.PathUpdate | GalleryApp/Utilities/NetworkManager.swift:31-47 | connected exactly when the path is satisfied; the type is the first interface; a notification is posted exactly when connectivity changed |
| Network.RepeatedPathUpdate | GalleryApp/Utilities/NetworkManager.swift:33-46 | a second update with the same status posts nothing; the first posts exactly when it changed connectivity |
| CacheSpec.CacheLimits | GalleryApp/Utilities/ImageCacheManager.swift:17-18 | the size limit is 100 * 1024 * 1024 bytes and the age limit 7 * 24 * 60 * 60 seconds, as at lines 17-18 |
| CacheSpec.EvictionTargetIsThreeQuarters | GalleryApp/Utilities/ImageCacheManager.swift:248 | size eviction aims for three quarters of the maximum size, in integer division |
| CacheSpec.FirstIn | GalleryApp/Utilities/ImageCacheManager.swift:88-98 | a loop that stops at the first throwing call processes exactly the names before the first failing one |
| CacheSpec.FileName | GalleryApp/Utilities/ImageCacheManager.swift:48 | the file for a key is the key followed by ".jpg", and stripping ".jpg" from it strips the key alone |
| CacheSpec.StripJpg | GalleryApp/Utilities/ImageCacheManager.swift:190 | removing every ".jpg" occurrence never lengthens a name |
| CacheSpec.KeyFromFileName | GalleryApp/Utilities/ImageCacheManager.swift:190 | stripping ".jpg" from "<key>.jpg" recovers the key exactly when the key itself contains no ".jpg" |
| CacheSpec.KeyWithJpgIsLost | GalleryApp/Utilities/ImageCacheManager.swift:190 | the key "a.jpg" is recovered as "a" |
| CacheSpec.SumSizesOfListing | GalleryApp/Utilities/ImageCacheManager.swift:85-101 | summing sizes along any complete listing gives the size of the whole directory |
| CacheSpec.RemovedTotal | GalleryApp/Utilities/ImageCacheManager.swift:249-258 | the size of what remains plus the size of what was removed is the original size |
| CacheSpec.WithKey | GalleryApp/Utilities/ImageCacheManager.swift:206-221 | adding a key keeps the index as a prefix, adds exactly that key and keeps it duplicate-free |
| CacheSpec.WithKeyIdempotent | GalleryApp/Utilities/ImageCacheManager.swift:207-209 | adding a key that is already present changes nothing |
| CacheSpec.Without | GalleryApp/Utilities/ImageCacheManager.swift:223-227 | removing keys keeps exactly the keys not removed, never grows the index and keeps it duplicate-free |
| CacheSpec.WithoutConcat | GalleryApp/Utilities/ImageCacheManager.swift:225 | filtering distributes over concatenation, so the kept keys keep their order |
| CacheSpec.Expired | GalleryApp/Utilities/ImageCacheManager.swift:187-188 | a file without a creation date never expires; an expired file was created more than seven days before now |
| CacheSpec.ExpiredStaysExpired | GalleryApp/Utilities/ImageCacheManager.swift:188 | a file that has expired stays expired at every later time |
| CacheSpec.ExpiredNames | GalleryApp/Utilities/ImageCacheManager.swift:185-195 | the expiry pass selects exactly the listed files older than seven days |
| CacheSpec.KeysOf | GalleryApp/Utilities/ImageCacheManager.swift:190-191 | one key per removed file, each the file name with ".jpg" stripped |
| CacheSpec.ExpiredKeyDropped | GalleryApp/Utilities/ImageCacheManager.swift:179-204 | the key of an expired file without ".jpg" in it leaves the index |
| CacheSpec.ExpiryOnlyDeletesExpired | GalleryApp/Utilities/ImageCacheManager.swift:187-189 | the expiry pass leaves every remaining entry unchanged and removes only expired entries |
| CacheSpec.ExpiryExact | GalleryApp/Utilities/ImageCacheManager.swift:179-204 | without faults the pass completes and keeps exactly the unexpired files |
| CacheSpec.SortDate | GalleryApp/Utilities/ImageCacheManager.swift:242-243 | the sort date is unknown (distantPast) exactly when the attributes cannot be read or carry no creation date, otherwise the creation date |
| CacheSpec.EvictPlan | GalleryApp/Utilities/ImageCacheManager.swift:248-258 | the evicted files are a prefix of the oldest-first order |
| CacheSpec.EvictPlanMinimal | GalleryApp/Utilities/ImageCacheManager.swift:249-250 | every evicted file was removed while less than the needed size had been freed |
| CacheSpec.EvictPlanEnds | GalleryApp/Utilities/ImageCacheManager.swift:249-258 | eviction stops only when enough is freed, the order is used up, or an attribute read or removal fails |
| CacheSpec.OldestFirst | GalleryApp/Utilities/ImageCacheManager.swift:240-258 | every evicted file is no younger than every surviving file |
| CacheSpec.EvictPlanFrees | GalleryApp/Utilities/ImageCacheManager.swift:247-258 | without faults, eviction frees at least the needed size |
| CacheSpec.EvictionReachesTarget | GalleryApp/Utilities/ImageCacheManager.swift:236-258 | without faults, a cache over 100 MiB is at most 75 MiB after eviction |
| ImageCache.ImageCacheManager.constructor | GalleryApp/Utilities/ImageCacheManager.swift:22-40 | start-up runs the expiry pass: the expired files before the first fault are removed, and only a completed pass that removed files drops their keys from the index |
| ImageCache.ImageCacheManager.HasImageInDiskCache | GalleryApp/Utilities/ImageCacheManager.swift:79-82 | true exactly when the directory holds "<key>.jpg"; the index is not consulted |
| ImageCache.ImageCacheManager.StoredBytes | GalleryApp/Utilities/ImageCacheManager.swift:63-67 | the bytes of "<key>.jpg", present exactly when the file exists |
| ImageCache.ImageCacheManager.LoadImageFromDisk | GalleryApp/Utilities/ImageCacheManager.swift:60-76 | nil when the file is missing or the read throws, otherwise the decoding of the stored bytes |
| ImageCache.ImageCacheManager.GetCachedImageURLs | GalleryApp/Utilities/ImageCacheManager.swift:118-125 | the persisted index; the directory is not read |
| ImageCache.ImageCacheManager.GetCachedImageCount | GalleryApp/Utilities/ImageCacheManager.swift:128-130 | the length of the index |
| ImageCache.ImageCacheManager.ListDirectory | GalleryApp/Utilities/ImageCacheManager.swift:89 | every file of the directory exactly once |
| ImageCache.ImageCacheManager.SortedByCreationDate | GalleryApp/Utilities/ImageCacheManager.swift:240-245 | every file once, oldest first, with undated or unreadable files first |
| ImageCache.ImageCacheManager.GetCacheSize | GalleryApp/Utilities/ImageCacheManager.swift:85-101 | 0 if listing fails, else the sizes up to the first unreadable file; never more than the cache, and the whole cache without faults |
| ImageCache.ImageCacheManager.AddCachedImageURL | GalleryApp/Utilities/ImageCacheManager.swift:206-221 | the key is appended unless already present |
| ImageCache.ImageCacheManager.RemoveCachedImageURLs | GalleryApp/Utilities/ImageCacheManager.swift:223-227 | the given keys are filtered out of the index, order kept |
| ImageCache.ImageCacheManager.ClearCachedImageURLs | GalleryApp/Utilities/ImageCacheManager.swift:229-231 | the index becomes empty |
| ImageCache.ImageCacheManager.SaveImageToDisk | GalleryApp/Utilities/ImageCacheManager.swift:45-57 | after encoding and a write that succeed, "<key>.jpg" holds the encoded bytes and the key is in the index; otherwise nothing changes |
| ImageCache.ImageCacheManager.ClearAllCache | GalleryApp/Utilities/ImageCacheManager.swift:104-115 | files are removed in listing order up to the first failing removal; the index is emptied only if all removals succeed |
| ImageCache.ImageCacheManager.CleanOldCache | GalleryApp/Utilities/ImageCacheManager.swift:179-204 | removes expired files in listing order up to the first fault; only a completed pass drops their keys; without faults exactly the unexpired files remain |
| ImageCache.ImageCacheManager.DeleteExpiredFiles | GalleryApp/Utilities/ImageCacheManager.swift:185-195 | the loop stops at the first fault and has removed exactly the expired files before it, collecting their keys |
| ImageCache.ImageCacheManager.CleanCacheIfNeeded | GalleryApp/Utilities/ImageCacheManager.swift:234-263 | under 100 MiB, or when the second listing throws, nothing is removed; otherwise the oldest-first eviction plan is removed; the index is untouched, and without faults at most 75 MiB remains |
| ImageCache.ImageCacheManager.EvictIfOverLimit | GalleryApp/Utilities/ImageCacheManager.swift:236-262 | removes the eviction plan for the measured size only when that size is over the limit and the directory lists again |
| ImageCache.ImageCacheManager.DeleteOldestFiles | GalleryApp/Utilities/ImageCacheManager.swift:248-258 | the loop removes exactly the eviction plan for the size to remove |
| Views.Resolution | GalleryApp/Views/GalleryViewController.swift:215-268 | each outcome (bad URL, memory, disk, offline, fetch error, undecodable, downloaded) holds exactly when every earlier tier missed |
| Views.MemoryCache.constructor | GalleryApp/Views/GalleryViewController.swift:213 | the shared memory cache starts empty |
| Views.ImageView.LoadImage | GalleryApp/Views/GalleryViewController.swift:215-281 | the outcome follows the tier order; each tier's picture or symbol is shown; memory is filled on disk hits and downloads; disk changes only after a download, and then, without faults, ends at most 100 MiB, or at most 75 MiB when the saved cache was over 100 MiB |
| Views.StoreDownloaded | GalleryApp/Views/GalleryViewController.swift:270-275 | a download goes into the memory tier, is saved to disk (key indexed on success), and the disk is then cut back within the saved state: unchanged when at most 100 MiB, and without faults at most 100 MiB, or at most 75 MiB when the saved cache was over 100 MiB |
| Views.LoadAgain | GalleryApp/Views/GalleryViewController.swift:222-236 | once a lookup shows a picture, the next lookup of the same URL is a memory hit |
| Views.GalleryViewController.NetworkStatusChanged | GalleryApp/Views/GalleryViewController.swift:117-133 | when connected, reloads the twenty images and tells the delegate only if no images are shown, else leaves images and events alone, and keeps the delegate either way; when disconnected, hands over to the offline transition |

## Left out

- Rendering, layout, navigation, login and profile screens are not modelled. The offline indicator (updateOfflineIndicator) is not modelled either, since it only changes view appearance.
- JPEG encoding and decoding are function parameters. The compression quality (0.8) is not modelled.
- Concurrency is not modelled: dispatch queues, URLSession callbacks, NWPathMonitor's queue and NotificationCenter delivery. loadImage's steps run to completion in order, and interleaved loads are not modelled.
- The `[weak self]` cases where the object is already gone are not modelled.
- NSCache's own eviction under memory pressure is not modelled. The memory tier is a map.
- The megabyte figures (Double) and every print or log line are not modelled.
- The debug helpers (debugCacheStatus, testAddURLToCache, printCacheInfo) are not modelled.
- createCacheDirectoryIfNeeded is not modelled. The directory is assumed to exist.
- UserDefaults is not modelled. The index is a field, and a missing value reads as the empty array, as in the source.
- Times are whole seconds. A file's creation date is optional.
- SaveImageToDisk stamps a rewritten file with the current time. The file system may keep the original creation date.
- appendingPathComponent is not modelled. A key is used as an opaque file name, so keys containing "/" are treated like any other key. In the app every key is a picture URL, so "<key>.jpg" most likely names a file inside directories that are never created. The write at ImageCacheManager.swift:51 would then throw and the disk tier would stay empty. The model covers that outcome only as a failed write (`writeOk` false); this consequence is an inference, not established.
- A file without a size attribute is not modelled. Every file has a size.
- URL(string:) acceptance is an input boolean. URL syntax is not modelled.
- IoFaults fixes which names fail per kind of call, so a file whose attributes cannot be read fails the same way in the size measurement and in the eviction pass of cleanCacheIfNeeded. The two directory listings of cleanCacheIfNeeded (:89 and :240) fail independently.
- The view model's pagination and offline-transition methods are not modelled; their bodies are not part of this model. The controller records only how often handleOfflineTransition is called.
- Views.GalleryViewController.NetworkStatusChanged: says nothing about the view model's images or delegate events after the offline transition, because that call's effect is not part of this model.
- Views.ImageView.LoadImage: states the disk state after a download only through bounds, not which files go or that the oldest go first. Files are removed only from the saved directory, it is unchanged when at most 100 MiB, and without faults it is at most 100 MiB (75 MiB after an eviction). The exact, oldest-first eviction set is stated by ImageCache.ImageCacheManager.CleanCacheIfNeeded.
- Views.StoreDownloaded: gives the same bounds as LoadImage for the disk after the cleanup, not the exact oldest-first eviction set, which ImageCache.ImageCacheManager.CleanCacheIfNeeded states.
- Keys and file names are compared as sequences of code points. Swift's String equality uses canonical equivalence (in `contains` at ImageCacheManager.swift:208 and :225), `replacingOccurrences` at :190 is an NSString search, and the file system may normalise names. None of these are modelled. They agree with code-point comparison for the ASCII picture URLs the app uses as keys.

=== FILE: cache_spec.dfy ===
/**
 * The values ImageCacheManager.swift works on and the functions that say
 * what each of its operations must leave behind: file names, sizes, the
 * persisted key index, expiry and size-driven eviction.
 */
module CacheSpec {
  import opened Wrappers

  type Bytes = seq<bv8>

  /** A decoded picture. The JPEG codec itself is not modelled. */
  datatype Image = Image(bitmap: Bytes)

  /** One file of the cache directory: its bytes and, when known, its creation time in seconds. */
  datatype FileEntry = FileEntry(data: Bytes, created: Option<int>)

  /** The cache directory, by file name (the last path component). */
  type Directory = map<string, FileEntry>

  /** 100 MiB (100 * 1024 * 1024 bytes). */
  const MaxCacheSize: int := 104_857_600
  /** Seven days (7 * 24 * 60 * 60 seconds). */
  const MaxCacheAge: int := 604_800
  const JpgExtension: string := ".jpg"
  /** Size eviction keeps 75% of the maximum: MaxCacheSize * 3 / 4 bytes. */
  const EvictionTarget: int := 78_643_200

  /** The limits in the units the source writes them in. */
  lemma CacheLimits()
    ensures MaxCacheSize == 100 * 1024 * 1024
    ensures MaxCacheAge == 7 * 24 * 60 * 60
  {
  }

  /** The size eviction aims for: three quarters of the maximum, in integer division. */
  lemma EvictionTargetIsThreeQuarters()
    ensures EvictionTarget == MaxCacheSize * 3 / 4
  {
  }

  /**
   * Which file-system calls throw: listing the directory, listing it a
   * second time for size eviction, reading the attributes of a file,
   * removing a file.
   */
  datatype IoFaults = IoFaults(listFails: bool, relistFails: bool, statFails: set<string>, removeFails: set<string>)

  /** No call on any file of `dir` throws. */
  predicate FaultFree(dir: Directory, io: IoFaults) {
    && !io.listFails
    && forall n :: n in dir ==> n !in io.statFails && n !in io.removeFails
  }

  function Elements(s: seq<string>): set<string> {
    set x | x in s
  }

  predicate NoDuplicates(s: seq<string>) {
    forall i, j :: 0 <= i < j < |s| ==> s[i] != s[j]
  }

  /** `l` enumerates the directory: every file exactly once. */
  predicate IsListing(l: seq<string>, dir: Directory) {
    && NoDuplicates(l)
    && (forall n :: n in l ==> n in dir)
    && (forall n :: n in dir ==> n in l)
  }

  /** Index of the first name of `l` in `bad`, or |l| when there is none. */
  function FirstIn(l: seq<string>, bad: set<string>): (k: nat)
    ensures k <= |l|
    ensures forall j :: 0 <= j < k ==> l[j] !in bad
    ensures k < |l| ==> l[k] in bad
  {
    if l == [] then 0 else if l[0] in bad then 0 else 1 + FirstIn(l[1..], bad)
  }

  // ---------------------------------------------------------------- file names

  /**
   * The file a key is stored in: "<key>.jpg". The key comes first, and
   * stripping ".jpg" from the file name strips the key alone.
   */
  function FileName(key: string): (r: string)
    ensures |r| == |key| + |JpgExtension| && r[..|key|] == key
    ensures StripJpg(r) == StripJpg(key)
  {
    StripJpgAppended(key);
    key + JpgExtension
  }

  /** `s` contains ".jpg" somewhere. */
  predicate HasJpg(s: string) {
    |s| >= 4 && (s[..4] == JpgExtension || HasJpg(s[1..]))
  }

  /** `replacingOccurrences(of: ".jpg", with: "")`: removes every ".jpg", scanning left to right. */
  function StripJpg(s: string): (r: string)
    ensures |r| <= |s|
  {
    if |s| >= 4 && s[..4] == JpgExtension then StripJpg(s[4..])
    else if s == [] then []
    else [s[0]] + StripJpg(s[1..])
  }

  /** No occurrence of ".jpg" straddles the appended extension, so stripping ignores it. */
  lemma {:induction false} StripJpgAppended(s: string)
    ensures StripJpg(s + JpgExtension) == StripJpg(s)
  {
    var t := s + JpgExtension;
    if s == [] {
      assert t == JpgExtension && t[4..] == [];
    } else if |s| >= 4 {
      assert t[..4] == s[..4];
      if s[..4] == JpgExtension {
        assert t[4..] == s[4..] + JpgExtension;
        StripJpgAppended(s[4..]);
      } else {
        assert t[1..] == s[1..] + JpgExtension;
        StripJpgAppended(s[1..]);
      }
    } else {
      assert t[|s|] == '.' && JpgExtension[|s|] != '.';
      assert t[..4] != JpgExtension;
      assert t[1..] == s[1..] + JpgExtension;
      StripJpgAppended(s[1..]);
    }
  }

  lemma {:induction false} StripJpgIdentity(s: string)
    requires !HasJpg(s)
    ensures StripJpg(s) == s
  {
    if s != [] {
      StripJpgIdentity(s[1..]);
    }
  }

  lemma {:induction false} StripJpgShrinks(s: string)
    requires HasJpg(s)
    ensures |StripJpg(s)| < |s|
  {
    if s[..4] != JpgExtension {
      StripJpgShrinks(s[1..]);
    }
  }

  /**
   * Recovering a key from its file name gives the key back exactly when
   * the key itself contains no ".jpg".
   */
  lemma KeyFromFileName(key: string)
    ensures StripJpg(FileName(key)) == key <==> !HasJpg(key)
  {
    if HasJpg(key) {
      StripJpgShrinks(key);
    } else {
      StripJpgIdentity(key);
    }
  }

  /** A key that does contain ".jpg" comes back shortened. */
  lemma KeyWithJpgIsLost()
    ensures StripJpg(FileName("a.jpg")) == "a"
  {
    assert FileName("a.jpg") == "a.jpg.jpg";
    assert "a.jpg.jpg"[1..][..4] == JpgExtension;
    assert "a.jpg.jpg"[1..][4..] == ".jpg";
    assert ".jpg"[..4] == JpgExtension && ".jpg"[4..] == [];
  }

  // ---------------------------------------------------------------- sizes

  function Size(e: FileEntry): nat {
    |e.data|
  }

  function SizeIn(dir: Directory, n: string): nat {
    if n in dir then Size(dir[n]) else 0
  }

  /** Total size of the named files, in the order given. */
  function SumSizes(dir: Directory, names: seq<string>): nat {
    if names == [] then 0 else SizeIn(dir, names[0]) + SumSizes(dir, names[1..])
  }

  /** Total size of every file of the directory. */
  ghost function TotalSize(dir: Directory): nat
    decreases |dir|
  {
    if dir == map[] then 0
    else
      var n :| n in dir;
      assert |dir - {n}| < |dir| by {
        assert (dir - {n}).Keys == dir.Keys - {n};
      }
      Size(dir[n]) + TotalSize(dir - {n})
  }

  lemma RemoveOneSmaller(dir: Directory, n: string)
    requires n in dir
    ensures |dir - {n}| == |dir| - 1
  {
    assert (dir - {n}).Keys == dir.Keys - {n};
  }

  /** The total does not depend on which file is counted first. */
  lemma {:induction false} TotalSizeRemove(dir: Directory, n: string)
    requires n in dir
    ensures TotalSize(dir) == Size(dir[n]) + TotalSize(dir - {n})
    decreases |dir|
  {
    var m :| m in dir && TotalSize(dir) == Size(dir[m]) + TotalSize(dir - {m});
    if m != n {
      RemoveOneSmaller(dir, m);
      RemoveOneSmaller(dir, n);
      TotalSizeRemove(dir - {m}, n);
      TotalSizeRemove(dir - {n}, m);
      assert dir - {m} - {n} == dir - {n} - {m};
    }
  }

  lemma {:induction false} SumSizesAppend(dir: Directory, a: seq<string>, b: seq<string>)
    ensures SumSizes(dir, a + b) == SumSizes(dir, a) + SumSizes(dir, b)
  {
    if a == [] {
      assert a + b == b;
    } else {
      assert (a + b)[1..] == a[1..] + b;
      SumSizesAppend(dir, a[1..], b);
    }
  }

  lemma SumSizesStep(dir: Directory, l: seq<string>, i: nat)
    requires i < |l|
    ensures SumSizes(dir, l[..i + 1]) == SumSizes(dir, l[..i]) + SizeIn(dir, l[i])
  {
    assert l[..i + 1] == l[..i] + [l[i]];
    SumSizesAppend(dir, l[..i], [l[i]]);
  }

  /** Files outside `names` do not affect their sum. */
  lemma {:induction false} SumSizesFrame(dir: Directory, dir': Directory, names: seq<string>)
    requires forall n :: n in names ==> SizeIn(dir, n) == SizeIn(dir', n)
    ensures SumSizes(dir, names) == SumSizes(dir', names)
  {
    if names != [] {
      SumSizesFrame(dir, dir', names[1..]);
    }
  }

  /** Summing the sizes along any listing of the directory gives its total size. */
  lemma {:induction false} SumSizesOfListing(dir: Directory, l: seq<string>)
    requires IsListing(l, dir)
    ensures SumSizes(dir, l) == TotalSize(dir)
    decreases |l|
  {
    if l == [] {
      assert dir == map[];
    } else {
      var rest := dir - {l[0]};
      assert IsListing(l[1..], rest) by {
        forall n ensures n in l[1..] <==> n in rest {
          if n in l[1..] {
            var j :| 0 <= j < |l[1..]| && l[1..][j] == n;
            assert l[j + 1] == n;
          }
          if n in l && n != l[0] {
            var j :| 0 <= j < |l| && l[j] == n;
            assert l[1..][j - 1] == n;
          }
        }
      }
      SumSizesOfListing(rest, l[1..]);
      SumSizesFrame(dir, rest, l[1..]);
      TotalSizeRemove(dir, l[0]);
    }
  }

  /** Removing some files lowers the total by exactly their sizes. */
  lemma {:induction false} RemovedTotal(dir: Directory, removed: seq<string>)
    requires NoDuplicates(removed)
    requires forall n :: n in removed ==> n in dir
    ensures TotalSize(dir - Elements(removed)) + SumSizes(dir, removed) == TotalSize(dir)
    decreases |removed|
  {
    if removed == [] {
      assert dir - Elements(removed) == dir;
    } else {
      var first, rest := removed[0], removed[1..];
      var dir' := dir - {first};
      assert first !in rest;
      assert NoDuplicates(rest) by {
        forall i, j | 0 <= i < j < |rest| ensures rest[i] != rest[j] {
          assert rest[i] == removed[i + 1] && rest[j] == removed[j + 1];
        }
      }
      RemovedTotal(dir', rest);
      assert dir' - Elements(rest) == dir - Elements(removed);
      SumSizesFrame(dir, dir', rest);
      TotalSizeRemove(dir, first);
    }
  }

  // ---------------------------------------------------------------- key index

  /** addCachedImageURL: append the key unless it is already present. */
  function WithKey(index: seq<string>, key: string): (r: seq<string>)
    ensures forall x :: x in r <==> x in index || x == key
    ensures |index| <= |r| && r[..|index|] == index
    ensures NoDuplicates(index) ==> NoDuplicates(r)
  {
    if key in index then index else index + [key]
  }

  /** Adding a key twice is the same as adding it once. */
  lemma WithKeyIdempotent(index: seq<string>, key: string)
    ensures WithKey(WithKey(index, key), key) == WithKey(index, key)
  {
  }

  /** removeCachedImageURLs: drop every key listed in `keys`, keeping the order of the rest. */
  function Without(index: seq<string>, keys: seq<string>): (r: seq<string>)
    ensures forall x :: x in r <==> x in index && x !in keys
    ensures |r| <= |index|
    ensures NoDuplicates(index) ==> NoDuplicates(r)
  {
    if index == [] then []
    else (if index[0] in keys then [] else [index[0]]) + Without(index[1..], keys)
  }

  /** Filtering distributes over concatenation: surviving keys keep their relative order. */
  lemma {:induction false} WithoutConcat(a: seq<string>, b: seq<string>, keys: seq<string>)
    ensures Without(a + b, keys) == Without(a, keys) + Without(b, keys)
  {
    if a == [] {
      assert a + b == b;
    } else {
      assert (a + b)[1..] == a[1..] + b;
      WithoutConcat(a[1..], b, keys);
    }
  }

  // ---------------------------------------------------------------- expiry

  /** Older than seven days, strictly; a file without a creation date never expires. */
  predicate Expired(e: FileEntry, now: int)
    ensures e.created == None ==> !Expired(e, now)
    ensures Expired(e, now) ==> e.created.value < now - MaxCacheAge
  {
    e.created.Some? && now - e.created.value > MaxCacheAge
  }

  /** A file that has expired stays expired as the clock moves on. */
  lemma ExpiredStaysExpired(e: FileEntry, now: int, later: int)
    requires Expired(e, now) && now <= later
    ensures Expired(e, later)
  {
  }

  predicate ExpiredIn(dir: Directory, n: string, now: int) {
    n in dir && Expired(dir[n], now)
  }

  /** The files at which cleanOldCache throws: an attribute read, or removing an expired file. */
  function AgeFaults(dir: Directory, now: int, io: IoFaults): set<string> {
    io.statFails + (set n | n in dir && n in io.removeFails && Expired(dir[n], now))
  }

  /** The expired files among `names`, in the order of `names`. */
  function ExpiredNames(dir: Directory, names: seq<string>, now: int): (r: seq<string>)
    ensures forall x :: x in r <==> x in names && ExpiredIn(dir, x, now)
  {
    if names == [] then []
    else
      var last := names[|names| - 1];
      ExpiredNames(dir, names[..|names| - 1], now) + (if ExpiredIn(dir, last, now) then [last] else [])
  }

  /** The keys recovered from file names, one per name. */
  function KeysOf(names: seq<string>): (r: seq<string>)
    ensures |r| == |names|
    ensures forall i :: 0 <= i < |names| ==> r[i] == StripJpg(names[i])
  {
    if names == [] then [] else KeysOf(names[..|names| - 1]) + [StripJpg(names[|names| - 1])]
  }

  /**
   * When a listed file "<key>.jpg" expires and the key has no ".jpg" of
   * its own, the key is gone from the index afterwards.
   */
  lemma ExpiredKeyDropped(dir: Directory, l: seq<string>, now: int, index: seq<string>, key: string)
    requires !HasJpg(key)
    requires FileName(key) in l && ExpiredIn(dir, FileName(key), now)
    ensures key !in Without(index, KeysOf(ExpiredNames(dir, l, now)))
  {
    var names := ExpiredNames(dir, l, now);
    var i :| 0 <= i < |names| && names[i] == FileName(key);
    KeyFromFileName(key);
    assert KeysOf(names)[i] == key;
  }

  lemma ExpiredNamesStep(dir: Directory, l: seq<string>, i: nat, now: int)
    requires i < |l|
    ensures ExpiredNames(dir, l[..i + 1], now)
         == ExpiredNames(dir, l[..i], now) + (if ExpiredIn(dir, l[i], now) then [l[i]] else [])
  {
    assert l[..i + 1][..i] == l[..i];
  }

  lemma KeysOfAppend(names: seq<string>, x: string)
    ensures KeysOf(names + [x]) == KeysOf(names) + [StripJpg(x)]
  {
    assert (names + [x])[..|names|] == names;
  }

  lemma RemoveOneMore(dir: Directory, removed: seq<string>, x: string)
    ensures dir - Elements(removed + [x]) == (dir - Elements(removed)) - {x}
  {
    assert Elements(removed + [x]) == Elements(removed) + {x};
  }

  /**
   * One step of the expiry walk over a duplicate-free listing: the file at
   * `i` is still present and unchanged, and deleting it if it is expired
   * extends the deleted names and the recovered keys by one.
   */
  lemma ExpiryStep(dir: Directory, l: seq<string>, i: nat, now: int)
    requires NoDuplicates(l) && i < |l| && l[i] in dir
    ensures l[i] in dir - Elements(ExpiredNames(dir, l[..i], now))
    ensures (dir - Elements(ExpiredNames(dir, l[..i], now)))[l[i]] == dir[l[i]]
    ensures ExpiredIn(dir, l[i], now) ==>
      && ExpiredNames(dir, l[..i + 1], now) == ExpiredNames(dir, l[..i], now) + [l[i]]
      && dir - Elements(ExpiredNames(dir, l[..i + 1], now))
         == (dir - Elements(ExpiredNames(dir, l[..i], now))) - {l[i]}
      && KeysOf(ExpiredNames(dir, l[..i + 1], now)) == KeysOf(ExpiredNames(dir, l[..i], now)) + [StripJpg(l[i])]
    ensures !ExpiredIn(dir, l[i], now) ==> ExpiredNames(dir, l[..i + 1], now) == ExpiredNames(dir, l[..i], now)
  {
    assert l[i] !in l[..i];
    ExpiredNamesStep(dir, l, i, now);
    var done := ExpiredNames(dir, l[..i], now);
    RemoveOneMore(dir, done, l[i]);
    KeysOfAppend(done, l[i]);
  }

  /** The expiry pass only deletes, and only expired files. */
  lemma ExpiryOnlyDeletesExpired(dir: Directory, names: seq<string>, now: int)
    ensures var rest := dir - Elements(ExpiredNames(dir, names, now));
      && (forall n :: n in rest ==> n in dir && rest[n] == dir[n])
      && (forall n :: n in dir && n !in rest ==> Expired(dir[n], now))
  {
  }

  /** Without faults the expiry pass deletes exactly the expired files. */
  lemma ExpiryExact(dir: Directory, l: seq<string>, now: int, io: IoFaults)
    requires IsListing(l, dir) && FaultFree(dir, io)
    ensures FirstIn(l, AgeFaults(dir, now, io)) == |l|
    ensures forall n :: n in dir - Elements(ExpiredNames(dir, l, now)) <==> n in dir && !Expired(dir[n], now)
  {
  }

  // ---------------------------------------------------------------- size eviction

  /** Creation dates in sort order, with "unknown" (Date.distantPast) first. */
  predicate DateLe(a: Option<int>, b: Option<int>) {
    a.None? || (b.Some? && a.value <= b.value)
  }

  /** The date cleanCacheIfNeeded sorts by: unknown when the attributes cannot be read. */
  function SortDate(dir: Directory, io: IoFaults, n: string): (d: Option<int>)
    ensures d == None <==> n in io.statFails || n !in dir || dir[n].created == None
    ensures d != None ==> d == dir[n].created
  {
    if n in io.statFails || n !in dir then None else dir[n].created
  }

  predicate SortedByDate(order: seq<string>, dir: Directory, io: IoFaults) {
    forall i, j {:trigger SortDate(dir, io, order[i]), SortDate(dir, io, order[j])} ::
      0 <= i < j < |order| ==> DateLe(SortDate(dir, io, order[i]), SortDate(dir, io, order[j]))
  }

  /** Some file of a non-empty set is no newer than any other. */
  lemma {:induction false} OldestExists(s: set<string>, dir: Directory, io: IoFaults)
    requires s != {}
    ensures exists n :: n in s && forall m :: m in s ==> DateLe(SortDate(dir, io, n), SortDate(dir, io, m))
    decreases |s|
  {
    var x :| x in s;
    if s != {x} {
      OldestExists(s - {x}, dir, io);
      var y :| y in s - {x} && forall m :: m in s - {x} ==> DateLe(SortDate(dir, io, y), SortDate(dir, io, m));
      if DateLe(SortDate(dir, io, x), SortDate(dir, io, y)) {
        assert forall m :: m in s ==> DateLe(SortDate(dir, io, x), SortDate(dir, io, m));
      } else {
        assert forall m :: m in s ==> DateLe(SortDate(dir, io, y), SortDate(dir, io, m));
      }
    } else {
      assert forall m :: m in s ==> m == x;
    }
  }

  /**
   * The files cleanCacheIfNeeded deletes, walking `order`: it stops once
   * `need` bytes are gone, or at the first file whose attributes or
   * removal throw.
   */
  function EvictPlan(order: seq<string>, dir: Directory, need: int, io: IoFaults): (r: seq<string>)
    ensures |r| <= |order| && r == order[..|r|]
  {
    if order == [] || need <= 0 || order[0] in io.statFails || order[0] in io.removeFails then []
    else [order[0]] + EvictPlan(order[1..], dir, need - SizeIn(dir, order[0]), io)
  }

  /** Every deleted file was still needed when it was deleted. */
  lemma {:induction false} EvictPlanMinimal(order: seq<string>, dir: Directory, need: int, io: IoFaults)
    ensures forall j :: 0 <= j < |EvictPlan(order, dir, need, io)| ==>
      SumSizes(dir, EvictPlan(order, dir, need, io)[..j]) < need
  {
    var plan := EvictPlan(order, dir, need, io);
    if plan != [] {
      var s := SizeIn(dir, order[0]);
      var rest := EvictPlan(order[1..], dir, need - s, io);
      EvictPlanMinimal(order[1..], dir, need - s, io);
      assert forall k :: 0 <= k < |rest| ==> SumSizes(dir, rest[..k]) < need - s;
      assert plan == [order[0]] + rest;
      forall j | 0 <= j < |plan| ensures SumSizes(dir, plan[..j]) < need {
        if j > 0 {
          assert plan[..j][0] == order[0];
          assert plan[..j][1..] == rest[..j - 1];
          assert SumSizes(dir, rest[..j - 1]) < need - s;
        }
      }
    }
  }

  /**
   * Eviction ends with enough bytes removed, at the end of the order, or
   * at a file whose attributes or removal throw.
   */
  lemma {:induction false} EvictPlanEnds(order: seq<string>, dir: Directory, need: int, io: IoFaults)
    ensures var plan := EvictPlan(order, dir, need, io);
      || |plan| == |order|
      || SumSizes(dir, plan) >= need
      || order[|plan|] in io.statFails
      || order[|plan|] in io.removeFails
  {
    var plan := EvictPlan(order, dir, need, io);
    if plan != [] {
      var s := SizeIn(dir, order[0]);
      var rest := EvictPlan(order[1..], dir, need - s, io);
      EvictPlanEnds(order[1..], dir, need - s, io);
      assert plan == [order[0]] + rest;
      assert plan[1..] == rest;
    }
  }

  lemma EvictPlanStep(order: seq<string>, dir: Directory, i: nat, need: int, io: IoFaults)
    requires i < |order| && need > 0
    requires order[i] !in io.statFails && order[i] !in io.removeFails
    ensures EvictPlan(order[i..], dir, need, io)
         == [order[i]] + EvictPlan(order[i + 1..], dir, need - SizeIn(dir, order[i]), io)
  {
    assert order[i..][1..] == order[i + 1..];
  }

  /** Eviction takes nothing once the order is used up, enough is freed, or the next file faults. */
  lemma EvictPlanStops(order: seq<string>, dir: Directory, i: nat, need: int, io: IoFaults)
    requires i <= |order|
    requires i == |order| || need <= 0 || order[i] in io.statFails || order[i] in io.removeFails
    ensures EvictPlan(order[i..], dir, need, io) == []
  {
  }

  /**
   * One step of the eviction walk over a duplicate-free order: the file at
   * `i` has not been deleted yet, so its size is the one the plan counts,
   * and deleting it extends the deleted prefix by one.
   */
  lemma EvictStep(order: seq<string>, dir: Directory, i: nat, need: int, next: int, io: IoFaults)
    requires NoDuplicates(order) && i < |order| && need > 0
    requires order[i] !in io.statFails && order[i] !in io.removeFails
    requires next == need - SizeIn(dir - Elements(order[..i]), order[i])
    ensures order[..i + 1] == order[..i] + [order[i]]
    ensures dir - Elements(order[..i + 1]) == (dir - Elements(order[..i])) - {order[i]}
    ensures order[..i] + EvictPlan(order[i..], dir, need, io)
         == order[..i + 1] + EvictPlan(order[i + 1..], dir, next, io)
  {
    assert order[i] !in order[..i];
    assert SizeIn(dir - Elements(order[..i]), order[i]) == SizeIn(dir, order[i]);
    assert order[..i + 1] == order[..i] + [order[i]];
    RemoveOneMore(dir, order[..i], order[i]);
    EvictPlanStep(order, dir, i, need, io);
    var rest := EvictPlan(order[i + 1..], dir, next, io);
    assert order[..i] + ([order[i]] + rest) == (order[..i] + [order[i]]) + rest;
  }

  /** Deleting a prefix of a listing takes exactly that prefix's bytes off the total. */
  lemma RemovedPrefixTotal(order: seq<string>, dir: Directory, k: nat)
    requires IsListing(order, dir) && k <= |order|
    ensures TotalSize(dir - Elements(order[..k])) + SumSizes(dir, order[..k]) == TotalSize(dir)
  {
    assert forall i :: 0 <= i < k ==> order[..k][i] == order[i];
    RemovedTotal(dir, order[..k]);
  }

  /** The sizes along a prefix of a listing are part of the total, and all of it for the whole listing. */
  lemma PrefixSizeBound(l: seq<string>, dir: Directory, k: nat)
    requires IsListing(l, dir) && k <= |l|
    ensures SumSizes(dir, l[..k]) <= TotalSize(dir)
    ensures k == |l| ==> SumSizes(dir, l[..k]) == TotalSize(dir)
  {
    RemovedPrefixTotal(l, dir, k);
    if k == |l| {
      assert l[..k] == l;
      SumSizesOfListing(dir, l);
    }
  }

  /** Deleted files are the oldest: none is newer than a file that survives. */
  lemma OldestFirst(order: seq<string>, dir: Directory, need: int, io: IoFaults)
    requires IsListing(order, dir) && SortedByDate(order, dir, io)
    ensures var plan := EvictPlan(order, dir, need, io);
      forall e, s :: e in plan && s in dir && s !in plan ==> DateLe(SortDate(dir, io, e), SortDate(dir, io, s))
  {
    var plan := EvictPlan(order, dir, need, io);
    forall e, s | e in plan && s in dir && s !in plan
      ensures DateLe(SortDate(dir, io, e), SortDate(dir, io, s))
    {
      var i :| 0 <= i < |plan| && plan[i] == e;
      var j :| 0 <= j < |order| && order[j] == s;
      assert order[i] == e;
    }
  }

  /** Evicting takes exactly the evicted files' bytes off the total. */
  lemma EvictedTotal(order: seq<string>, dir: Directory, need: int, io: IoFaults)
    requires IsListing(order, dir)
    ensures TotalSize(dir - Elements(EvictPlan(order, dir, need, io))) + SumSizes(dir, EvictPlan(order, dir, need, io))
         == TotalSize(dir)
  {
    RemovedPrefixTotal(order, dir, |EvictPlan(order, dir, need, io)|);
  }

  /** Without faults, eviction frees at least the bytes asked for, as long as the cache holds that many. */
  lemma EvictPlanFrees(order: seq<string>, dir: Directory, need: int, io: IoFaults)
    requires IsListing(order, dir) && FaultFree(dir, io)
    requires need <= TotalSize(dir)
    ensures SumSizes(dir, EvictPlan(order, dir, need, io)) >= need
  {
    var plan := EvictPlan(order, dir, need, io);
    if |plan| == |order| {
      assert plan == order;
      SumSizesOfListing(dir, order);
    } else {
      EvictPlanEnds(order, dir, need, io);
      assert order[|plan|] in dir;
    }
  }

  /**
   * Without faults, evicting from a cache over the limit leaves at most
   * 75% of the maximum.
   */
  lemma EvictionReachesTarget(order: seq<string>, dir: Directory, need: int, io: IoFaults)
    requires IsListing(order, dir) && FaultFree(dir, io)
    requires TotalSize(dir) > MaxCacheSize && need == TotalSize(dir) - EvictionTarget
    ensures TotalSize(dir - Elements(EvictPlan(order, dir, need, io))) <= EvictionTarget
  {
    EvictedTotal(order, dir, need, io);
    EvictPlanFrees(order, dir, need, io);
  }
}

=== FILE: decimal.dfy ===
/**
 * Swift's string interpolation of an `Int` ("\(n)"): optional minus sign
 * followed by the decimal digits, most significant first, no leading zeros.
 * The parser is the partner that shows the rendering loses nothing.
 */
module Decimal {
  import opened Wrappers

  predicate IsDigit(c: char) {
    '0' <= c <= '9'
  }

  predicate AllDigits(s: string) {
    forall i :: 0 <= i < |s| ==> IsDigit(s[i])
  }

  function DigitValue(c: char): nat
    requires IsDigit(c)
  {
    c as int - '0' as int
  }

  function DigitChar(d: nat): (c: char)
    requires d < 10
    ensures IsDigit(c) && DigitValue(c) == d
  {
    ('0' as int + d) as char
  }

  /** The decimal rendering of a non-negative integer. */
  function NatToString(n: nat): (s: string)
    ensures |s| >= 1 && AllDigits(s)
    ensures s[0] == '0' ==> n == 0
  {
    if n < 10 then [DigitChar(n)] else NatToString(n / 10) + [DigitChar(n % 10)]
  }

  /** "\(i)" for a Swift `Int`. */
  function IntToString(i: int): (s: string)
    ensures |s| >= 1
    ensures forall k :: 0 <= k < |s| ==> IsDigit(s[k]) || s[k] == '-'
  {
    if i < 0 then "-" + NatToString(-i) else NatToString(i)
  }

  /** The value of a string of digits, read most significant first. */
  function DigitsValue(s: string): nat
    requires AllDigits(s)
  {
    if s == [] then 0 else 10 * DigitsValue(s[..|s| - 1]) + DigitValue(s[|s| - 1])
  }

  function ParseNat(s: string): Option<nat> {
    if s != [] && AllDigits(s) then Some(DigitsValue(s)) else None
  }

  function ParseInt(s: string): Option<int> {
    if |s| >= 1 && s[0] == '-' then
      match ParseNat(s[1..])
      case Some(n) => Some(-(n as int))
      case None => None
    else
      match ParseNat(s)
      case Some(n) => Some(n as int)
      case None => None
  }

  lemma {:induction false} ParseNatToString(n: nat)
    ensures ParseNat(NatToString(n)) == Some(n)
  {
    var s := NatToString(n);
    if n < 10 {
      assert s[..|s| - 1] == [];
      assert DigitsValue(s) == DigitValue(s[0]) == n;
    } else {
      assert s[..|s| - 1] == NatToString(n / 10);
      ParseNatToString(n / 10);
    }
  }

  /** Reading back the rendering of any Int gives the Int. */
  lemma ParseIntToString(i: int)
    ensures ParseInt(IntToString(i)) == Some(i)
  {
    if i < 0 {
      ParseNatToString(-i);
      assert IntToString(i)[1..] == NatToString(-i);
    } else {
      ParseNatToString(i);
    }
  }

  /** Distinct integers render to distinct strings. */
  lemma IntToStringInjective(i: int, j: int)
    requires i != j
    ensures IntToString(i) != IntToString(j)
  {
    ParseIntToString(i);
    ParseIntToString(j);
  }
}

=== FILE: gallery_model.dfy ===
/**
 * GalleryModel.swift: the value type for one picture and the model that
 * regenerates the list of pictures.
 */
module Models {
  import opened Wrappers
  import opened Decimal

  /** Width and height a GalleryImage gets when none is given. */
  const DefaultDimension: int := 400

  const PicsumPrefix: string := "https://picsum.photos/"

  const RandomQuery: string := "random="

  /** The picture reference: its id, the URL it is fetched from and its size. */
  datatype GalleryImage = GalleryImage(id: string, imageURL: string, width: int, height: int)

  /** The pieces a picture URL is built from. */
  datatype URLParts = URLParts(width: int, height: int, id: string)

  /**
   * "https://picsum.photos/<width>/<height>?random=<id>": a Picsum address
   * that ends with the id.
   */
  function ImageURL(id: string, width: int, height: int): (u: string)
    ensures |u| >= |PicsumPrefix| + |id| && u[..|PicsumPrefix|] == PicsumPrefix
    ensures u[|u| - |id|..] == id
  {
    PicsumPrefix + IntToString(width) + "/" + IntToString(height) + "?" + RandomQuery + id
  }

  /** GalleryImage.init(id:width:height:), with both sizes defaulting to 400. */
  function NewImage(id: string, width: int := DefaultDimension, height: int := DefaultDimension): (img: GalleryImage)
    ensures img.id == id && img.width == width && img.height == height
    ensures ParseImageURL(img.imageURL) == Some(URLParts(width, height, id))
  {
    ImageURLRoundTrip(id, width, height);
    GalleryImage(id, ImageURL(id, width, height), width, height)
  }

  /** Splits `s` at the first occurrence of `c`, dropping that character. */
  function SplitAt(s: string, c: char): Option<(string, string)> {
    if s == [] then None
    else if s[0] == c then Some(([], s[1..]))
    else
      match SplitAt(s[1..], c)
      case Some(parts) => Some(([s[0]] + parts.0, parts.1))
      case None => None
  }

  /** Recovers width, height and id from a picture URL; None for any other string. */
  function ParseImageURL(url: string): Option<URLParts> {
    if |url| < |PicsumPrefix| || url[..|PicsumPrefix|] != PicsumPrefix then None
    else
      match SplitAt(url[|PicsumPrefix|..], '/')
      case None => None
      case Some(first) =>
        match SplitAt(first.1, '?')
        case None => None
        case Some(second) =>
          var query := second.1;
          if |query| < |RandomQuery| || query[..|RandomQuery|] != RandomQuery then None
          else
            match (ParseInt(first.0), ParseInt(second.0))
            case (Some(w), Some(h)) => Some(URLParts(w, h, query[|RandomQuery|..]))
            case _ => None
  }

  lemma {:induction false} SplitAtFirst(a: string, c: char, b: string)
    requires c !in a
    ensures SplitAt(a + [c] + b, c) == Some((a, b))
  {
    if a != [] {
      assert (a + [c] + b)[1..] == a[1..] + [c] + b;
      SplitAtFirst(a[1..], c, b);
      assert [a[0]] + a[1..] == a;
    }
  }

  lemma NoSeparatorIn(i: int, c: char)
    requires c == '/' || c == '?'
    ensures c !in IntToString(i)
  {
  }

  /** The URL determines the width, height and id it was built from. */
  lemma ImageURLRoundTrip(id: string, width: int, height: int)
    ensures ParseImageURL(ImageURL(id, width, height)) == Some(URLParts(width, height, id))
  {
    var w, h := IntToString(width), IntToString(height);
    var url := ImageURL(id, width, height);
    var query := RandomQuery + id;
    var afterWidth := h + ['?'] + query;
    assert url == PicsumPrefix + (w + ['/'] + afterWidth);
    assert url[..|PicsumPrefix|] == PicsumPrefix;
    assert url[|PicsumPrefix|..] == w + ['/'] + afterWidth;
    NoSeparatorIn(width, '/');
    SplitAtFirst(w, '/', afterWidth);
    NoSeparatorIn(height, '?');
    SplitAtFirst(h, '?', query);
    assert query[..|RandomQuery|] == RandomQuery;
    assert query[|RandomQuery|..] == id;
    ParseIntToString(width);
    ParseIntToString(height);
  }

  /** What generateImages(count:) leaves: ids "1" ... "count", default size. */
  function GeneratedImages(count: nat): (r: seq<GalleryImage>)
    ensures |r| == count
    ensures forall i :: 0 <= i < count ==> r[i].id == IntToString(i + 1)
    ensures forall i :: 0 <= i < count ==> r[i].width == DefaultDimension && r[i].height == DefaultDimension
  {
    seq(count, i requires 0 <= i < count => NewImage(IntToString(i + 1)))
  }

  /** One more picture extends the list at its end. */
  lemma GeneratedImagesExtend(n: nat)
    ensures GeneratedImages(n + 1) == GeneratedImages(n) + [NewImage(IntToString(n + 1))]
  {
  }

  /**
   * The picture at position i has id i + 1 (read back as a number) and a
   * URL carrying the default size and that id; so the pictures come in
   * ascending id order.
   */
  lemma GeneratedImageAt(count: nat, i: nat)
    requires i < count
    ensures ParseInt(GeneratedImages(count)[i].id) == Some(i + 1)
    ensures ParseImageURL(GeneratedImages(count)[i].imageURL)
         == Some(URLParts(DefaultDimension, DefaultDimension, GeneratedImages(count)[i].id))
  {
    var n := i + 1;
    ParseIntToString(n);
    assert GeneratedImages(count)[i].id == IntToString(n);
  }

  /** No two generated pictures share an id. */
  lemma GeneratedIdsDistinct(count: nat, i: nat, j: nat)
    requires i < j < count
    ensures GeneratedImages(count)[i].id != GeneratedImages(count)[j].id
  {
    var a, b := i + 1, j + 1;
    IntToStringInjective(a, b);
    assert GeneratedImages(count)[i].id == IntToString(a);
  }

  /** GalleryModel: the list of pictures the gallery shows. */
  class GalleryModel {
    var images: seq<GalleryImage>

    constructor ()
      ensures images == []
    {
      images := [];
    }

    /**
     * Discards the current list and appends `count` fresh pictures. The
     * closed range 1...count traps in Swift when count < 1.
     */
    method GenerateImages(count: int := 20)
      requires count >= 1
      modifies this
      ensures images == GeneratedImages(count)
    {
      images := [];
      for i := 1 to count + 1
        invariant images == GeneratedImages(i - 1)
      {
        GeneratedImagesExtend(i - 1);
        images := images + [NewImage(IntToString(i))];
      }
    }
  }
}

=== FILE: gallery_view_controller.dfy ===
/**
 * GalleryViewController.swift: the tiered picture lookup of the
 * UIImageView.loadImage(from:) extension, and the controller's reaction to a
 * connectivity change.
 */
module Views {
  import opened Wrappers
  import opened CacheSpec
  import opened ImageCache
  import opened Network
  import opened Models
  import opened ViewModels

  /** System symbol shown when both caches miss while offline. */
  const OfflineSymbol: string := "wifi.slash"
  /** System symbol shown when the download fails. */
  const ErrorSymbol: string := "exclamationmark.triangle"

  /** What an image view shows: nothing, a picture, or a system symbol. */
  datatype Display = Blank | Photo(image: Image) | Symbol(systemName: string)

  /**
   * How the data task completes: with an error, with neither error nor
   * data, or with a body.
   */
  datatype FetchResult = TransportError | MissingData | Received(body: Bytes)

  /** Where loadImage(from:) ends up. */
  datatype Tier = NotAUrl | MemoryHit | DiskHit | Offline | FetchFailed | Undecodable | Downloaded

  /** The disk-side inputs of one lookup: read and write outcomes, the clock, and cleanup faults. */
  datatype DiskIo = DiskIo(readOk: bool, writeOk: bool, now: int, faults: IoFaults)

  /** True when the fetch completes with a body the decoder accepts. */
  predicate Decodable(fetch: FetchResult, decode: Bytes -> Option<Image>) {
    fetch.Received? && decode(fetch.body).Some?
  }

  /**
   * The order of lookup: memory, then disk, then (offline) the placeholder,
   * then the network. Each tier is reached exactly when every earlier one
   * misses.
   */
  function Resolution(urlParses: bool, inMemory: bool, onDisk: bool, connected: bool, fetched: bool, decodable: bool): (t: Tier)
    ensures t == NotAUrl <==> !urlParses
    ensures t == MemoryHit <==> urlParses && inMemory
    ensures t == DiskHit <==> urlParses && !inMemory && onDisk
    ensures t == Offline <==> urlParses && !inMemory && !onDisk && !connected
    ensures t == FetchFailed <==> urlParses && !inMemory && !onDisk && connected && !fetched
    ensures t == Undecodable <==> urlParses && !inMemory && !onDisk && connected && fetched && !decodable
    ensures t == Downloaded <==> urlParses && !inMemory && !onDisk && connected && fetched && decodable
  {
    if !urlParses then NotAUrl
    else if inMemory then MemoryHit
    else if onDisk then DiskHit
    else if !connected then Offline
    else if !fetched then FetchFailed
    else if !decodable then Undecodable
    else Downloaded
  }

  /** The memory tier, shared by every image view (a static NSCache, without its eviction). */
  class MemoryCache {
    var entries: map<string, Image>

    constructor ()
      ensures entries == map[]
    {
      entries := map[];
    }
  }

  class ImageView {
    var image: Display

    constructor ()
      ensures image == Blank
    {
      image := Blank;
    }

    /**
     * loadImage(from:), run to completion with the asynchronous steps in
     * order. `urlParses` is whether URL(string:) accepts `urlString`;
     * `fetch` is how the data task completes.
     */
    method LoadImage(urlString: string, urlParses: bool, memory: MemoryCache, disk: ImageCacheManager,
                     network: NetworkManager, fetch: FetchResult,
                     encode: Image -> Option<Bytes>, decode: Bytes -> Option<Image>, io: DiskIo)
      returns (tier: Tier)
      modifies this, memory, disk
      ensures tier == Resolution(urlParses, urlString in old(memory.entries),
                                 old(disk.LoadImageFromDisk(urlString, io.readOk, decode)).Some?,
                                 network.isConnected, fetch.Received?, Decodable(fetch, decode))
      ensures tier == NotAUrl ==> image == old(image)
      ensures tier == MemoryHit ==> image == Photo(old(memory.entries)[urlString])
      ensures tier == DiskHit ==>
        && image == Photo(old(disk.LoadImageFromDisk(urlString, io.readOk, decode)).value)
        && memory.entries == old(memory.entries)[urlString := image.image]
      ensures tier == Offline ==> image == Symbol(OfflineSymbol)
      ensures tier == FetchFailed ==> image == Symbol(ErrorSymbol)
      ensures tier == Undecodable ==> image == Blank
      ensures tier != DiskHit && tier != Downloaded ==> memory.entries == old(memory.entries)
      ensures tier != Downloaded ==> disk.files == old(disk.files) && disk.index == old(disk.index)
      ensures tier == Downloaded ==>
        && image == Photo(decode(fetch.body).value)
        && memory.entries == old(memory.entries)[urlString := image.image]
        && disk.index == (if encode(image.image).Some? && io.writeOk then WithKey(old(disk.index), urlString)
                          else old(disk.index))
      ensures tier == Downloaded ==>
        var saved := if encode(image.image).Some? && io.writeOk
                     then old(disk.files)[FileName(urlString) := FileEntry(encode(image.image).value, Some(io.now))]
                     else old(disk.files);
        && (forall n :: n in disk.files ==> n in saved && disk.files[n] == saved[n])
        && (TotalSize(saved) <= MaxCacheSize ==> disk.files == saved)
        && (FaultFree(saved, io.faults) && !io.faults.relistFails ==> TotalSize(disk.files) <= MaxCacheSize)
        && (FaultFree(saved, io.faults) && !io.faults.relistFails && TotalSize(saved) > MaxCacheSize ==>
          TotalSize(disk.files) <= EvictionTarget)
    {
      if !urlParses {
        return NotAUrl;
      }
      if urlString in memory.entries {
        image := Photo(memory.entries[urlString]);
        return MemoryHit;
      }
      var diskImage := disk.LoadImageFromDisk(urlString, io.readOk, decode);
      if diskImage.Some? {
        memory.entries := memory.entries[urlString := diskImage.value];
        image := Photo(diskImage.value);
        return DiskHit;
      }
      if !network.isConnected {
        image := Symbol(OfflineSymbol);
        return Offline;
      }
      image := Blank;
      if !fetch.Received? {
        image := Symbol(ErrorSymbol);
        return FetchFailed;
      }
      var decoded := decode(fetch.body);
      if decoded == None {
        return Undecodable;
      }
      StoreDownloaded(urlString, decoded.value, memory, disk, encode, io);
      image := Photo(decoded.value);
      tier := Downloaded;
    }
  }

  /**
   * The caching step after a successful download: the memory tier, then
   * saveImageToDisk, then cleanCacheIfNeeded.
   */
  method StoreDownloaded(urlString: string, picture: Image, memory: MemoryCache, disk: ImageCacheManager,
                         encode: Image -> Option<Bytes>, io: DiskIo)
    modifies memory, disk
    ensures memory.entries == old(memory.entries)[urlString := picture]
    ensures disk.index == (if encode(picture).Some? && io.writeOk then WithKey(old(disk.index), urlString)
                           else old(disk.index))
    ensures var saved := if encode(picture).Some? && io.writeOk
                         then old(disk.files)[FileName(urlString) := FileEntry(encode(picture).value, Some(io.now))]
                         else old(disk.files);
      && (forall n :: n in disk.files ==> n in saved && disk.files[n] == saved[n])
      && (TotalSize(saved) <= MaxCacheSize ==> disk.files == saved)
      && (FaultFree(saved, io.faults) && !io.faults.relistFails ==> TotalSize(disk.files) <= MaxCacheSize)
      && (FaultFree(saved, io.faults) && !io.faults.relistFails && TotalSize(saved) > MaxCacheSize ==>
          TotalSize(disk.files) <= EvictionTarget)
  {
    memory.entries := memory.entries[urlString := picture];
    disk.SaveImageToDisk(picture, urlString, encode, io.writeOk, io.now);
    var _, _, _ := disk.CleanCacheIfNeeded(io.faults);
  }

  /** Whatever a first lookup of a URL finds, once it shows a picture the next lookup is a memory hit. */
  method LoadAgain(view: ImageView, urlString: string, memory: MemoryCache, disk: ImageCacheManager,
                   network: NetworkManager, first: FetchResult, second: FetchResult,
                   encode: Image -> Option<Bytes>, decode: Bytes -> Option<Image>, io: DiskIo)
    returns (tier1: Tier, tier2: Tier)
    modifies view, memory, disk
    ensures tier1 in {MemoryHit, DiskHit, Downloaded} ==> tier2 == MemoryHit
  {
    tier1 := view.LoadImage(urlString, true, memory, disk, network, first, encode, decode, io);
    tier2 := view.LoadImage(urlString, true, memory, disk, network, second, encode, decode, io);
  }

  /** What the controller does after a connectivity notification. */
  datatype StatusReaction = ReloadImages | KeepImages | OfflineTransition

  class GalleryViewController {
    const viewModel: GalleryViewModel
    const network: NetworkManager
    /**
     * Calls of the view model's handleOfflineTransition(), whose body is
     * not part of this model; only the call is recorded.
     */
    var offlineTransitions: nat

    constructor (viewModel: GalleryViewModel, network: NetworkManager)
      ensures this.viewModel == viewModel && this.network == network
      ensures offlineTransitions == 0
    {
      this.viewModel := viewModel;
      this.network := network;
      offlineTransitions := 0;
    }

    /**
     * networkStatusChanged: when connected, loads pictures only if none
     * are shown; when disconnected, hands over to the offline transition.
     * What that transition does to the view model is not stated.
     */
    method NetworkStatusChanged() returns (reaction: StatusReaction)
      modifies this`offlineTransitions, viewModel, viewModel.model
      ensures network.isConnected && old(viewModel.GetImageCount()) == 0 ==> reaction == ReloadImages
      ensures network.isConnected && old(viewModel.GetImageCount()) != 0 ==> reaction == KeepImages
      ensures !network.isConnected ==> reaction == OfflineTransition
      ensures reaction == ReloadImages ==>
        && viewModel.model.images == GeneratedImages(LoadCount)
        && viewModel.delegateEvents == old(viewModel.delegateEvents) + viewModel.Notify(DidLoadImages)
      ensures reaction == KeepImages ==>
        && viewModel.model.images == old(viewModel.model.images)
        && viewModel.delegateEvents == old(viewModel.delegateEvents)
      ensures reaction != OfflineTransition ==> viewModel.hasDelegate == old(viewModel.hasDelegate)
      ensures offlineTransitions == old(offlineTransitions) + (if reaction == OfflineTransition then 1 else 0)
    {
      if network.isConnected {
        if viewModel.GetImageCount() == 0 {
          viewModel.LoadImages();
          reaction := ReloadImages;
        } else {
          reaction := KeepImages;
        }
      } else {
        offlineTransitions := offlineTransitions + 1;
        reaction := OfflineTransition;
      }
    }
  }
}

=== FILE: gallery_view_model.dfy ===
/**
 * GalleryViewModel.swift: owns the GalleryModel, exposes bounds-checked
 * reads of it and forwards events to its (weak, optional) delegate.
 */
module ViewModels {
  import opened Wrappers
  import opened Models

  /** How many pictures loadImages() asks the model for. */
  const LoadCount: int := 20

  /** The two delegate callbacks, recorded in the order they are made. */
  datatype DelegateEvent = DidLoadImages | DidSelectImage(index: int)

  class GalleryViewModel {
    const model: GalleryModel
    /** Whether the weak delegate reference is currently set. */
    var hasDelegate: bool
    /** Callbacks delivered to the delegate so far. */
    var delegateEvents: seq<DelegateEvent>

    constructor ()
      ensures fresh(model) && model.images == []
      ensures !hasDelegate && delegateEvents == []
    {
      model := new GalleryModel();
      hasDelegate := false;
      delegateEvents := [];
    }

    /** Callbacks a delegate call adds: none when no delegate is set. */
    function Notify(e: DelegateEvent): seq<DelegateEvent>
      reads this
    {
      if hasDelegate then [e] else []
    }

    /**
     * Regenerates pictures "1" ... "20" whatever the list held before,
     * so a second call leaves the same list; then tells the delegate.
     */
    method LoadImages()
      modifies this, model
      ensures model.images == GeneratedImages(LoadCount)
      ensures hasDelegate == old(hasDelegate)
      ensures delegateEvents == old(delegateEvents) + Notify(DidLoadImages)
    {
      model.GenerateImages(LoadCount);
      delegateEvents := delegateEvents + Notify(DidLoadImages);
    }

    function GetImageCount(): (n: int)
      reads this, model
      ensures n == |model.images|
    {
      |model.images|
    }

    /** The picture at `index`, or None when the index is out of range. */
    function GetImage(index: int): (r: Option<GalleryImage>)
      reads this, model
      ensures r == None <==> index < 0 || index >= GetImageCount()
      ensures r != None ==> r.value == model.images[index]
    {
      if index >= 0 && index < |model.images| then Some(model.images[index]) else None
    }

    /** The URL of the picture at `index`, or None when the index is out of range. */
    function GetImageURL(index: int): (r: Option<string>)
      reads this, model
      ensures r == None <==> index < 0 || index >= GetImageCount()
      ensures r != None ==> r.value == model.images[index].imageURL
    {
      match GetImage(index)
      case Some(image) => Some(image.imageURL)
      case None => None
    }

    /** Forwards a selection to the delegate; the picture list is untouched. */
    method DidSelectImage(index: int)
      modifies this`delegateEvents
      ensures model.images == old(model.images)
      ensures delegateEvents == old(delegateEvents) + Notify(DelegateEvent.DidSelectImage(index))
    {
      delegateEvents := delegateEvents + Notify(DelegateEvent.DidSelectImage(index));
    }
  }

  /** After loadImages() the list holds 20 pictures with ids "1" and "20" at its ends. */
  lemma LoadedImagesEnds()
    ensures |GeneratedImages(LoadCount)| == 20
    ensures GeneratedImages(LoadCount)[0].id == "1"
    ensures GeneratedImages(LoadCount)[19].id == "20"
  {
    assert Decimal.NatToString(20) == Decimal.NatToString(2) + [Decimal.DigitChar(0)];
  }
}

=== FILE: image_cache_manager.dfy ===
/**
 * ImageCacheManager.swift: the disk tier. Pictures are files "<key>.jpg" in
 * one directory; beside it a persisted, duplicate-free array of keys (the
 * index). Existence and loading consult the directory only.
 */
module ImageCache {
  import opened Wrappers
  import opened CacheSpec

  class ImageCacheManager {
    /** The ImageCache directory. */
    var files: Directory
    /** The key array persisted in UserDefaults under "GalleryApp_CachedImageURLs". */
    var index: seq<string>
    /** The order in which the start-up expiry pass saw the directory. */
    ghost var startupListing: seq<string>

    /**
     * Loads the persisted state and runs the expiry pass, which removes
     * only files older than seven days.
     */
    constructor (stored: Directory, storedIndex: seq<string>, now: int, io: IoFaults)
      ensures io.listFails ==> startupListing == []
      ensures !io.listFails ==> IsListing(startupListing, stored)
      ensures var done := startupListing[..FirstIn(startupListing, AgeFaults(stored, now, io))];
        files == stored - Elements(ExpiredNames(stored, done, now))
      ensures var expired := ExpiredNames(stored, startupListing, now);
        index == if FirstIn(startupListing, AgeFaults(stored, now, io)) == |startupListing| && expired != []
                 then Without(storedIndex, KeysOf(expired))
                 else storedIndex
      ensures forall n :: n in files ==> n in stored && files[n] == stored[n]
      ensures forall n :: n in stored && n !in files ==> Expired(stored[n], now)
      ensures FaultFree(stored, io) ==> forall n :: n in files <==> n in stored && !Expired(stored[n], now)
      ensures forall k :: k in index ==> k in storedIndex
      ensures NoDuplicates(storedIndex) ==> NoDuplicates(index)
    {
      files := stored;
      index := storedIndex;
      startupListing := [];
      new;
      var listing := CleanOldCache(now, io);
      startupListing := listing;
    }

    // ------------------------------------------------------------ reads

    /** hasImageInDiskCache: decided by the directory; the frame shows the index is not read. */
    function HasImageInDiskCache(key: string): (r: bool)
      reads this`files
      ensures r <==> FileName(key) in files
    {
      FileName(key) in files
    }

    /** The bytes stored for `key`, if its file exists. */
    function StoredBytes(key: string): (r: Option<Bytes>)
      reads this`files
      ensures r != None <==> HasImageInDiskCache(key)
      ensures r != None ==> r.value == files[FileName(key)].data
    {
      if FileName(key) in files then Some(files[FileName(key)].data) else None
    }

    /**
     * loadImageFromDisk: None when the file is missing or reading it
     * throws; otherwise whatever the decoder makes of the stored bytes.
     */
    function LoadImageFromDisk(key: string, readOk: bool, decode: Bytes -> Option<Image>): (r: Option<Image>)
      reads this`files
      ensures !HasImageInDiskCache(key) || !readOk ==> r == None
      ensures HasImageInDiskCache(key) && readOk ==> r == decode(StoredBytes(key).value)
    {
      if FileName(key) in files && readOk then decode(files[FileName(key)].data) else None
    }

    /** getCachedImageURLs: the persisted index; the frame shows the directory is not read. */
    function GetCachedImageURLs(): (r: seq<string>)
      reads this`index
      ensures r == index
    {
      index
    }

    function GetCachedImageCount(): (r: int)
      reads this`index
      ensures r == |GetCachedImageURLs()|
    {
      |index|
    }

    /** contentsOfDirectory: every file once, in an order the file system chooses. */
    method ListDirectory() returns (listing: seq<string>)
      ensures IsListing(listing, files)
    {
      var remaining := files.Keys;
      listing := [];
      while remaining != {}
        invariant forall n :: n in files ==> n in remaining || n in listing
        invariant forall n :: n in remaining ==> n in files && n !in listing
        invariant forall n :: n in listing ==> n in files
        invariant NoDuplicates(listing)
        decreases |remaining|
      {
        var n :| n in remaining;
        listing := listing + [n];
        remaining := remaining - {n};
      }
    }

    /**
     * The directory sorted by creation date, oldest first; a file whose
     * attributes cannot be read or that has no date sorts first. Ties are
     * broken in an unspecified way.
     */
    method SortedByCreationDate(io: IoFaults) returns (order: seq<string>)
      ensures IsListing(order, files) && SortedByDate(order, files, io)
    {
      var remaining := files.Keys;
      order := [];
      while remaining != {}
        invariant forall n :: n in files ==> n in remaining || n in order
        invariant forall n :: n in remaining ==> n in files && n !in order
        invariant forall n :: n in order ==> n in files
        invariant NoDuplicates(order) && SortedByDate(order, files, io)
        invariant forall i, m :: 0 <= i < |order| && m in remaining ==>
          DateLe(SortDate(files, io, order[i]), SortDate(files, io, m))
        decreases |remaining|
      {
        OldestExists(remaining, files, io);
        var n :| n in remaining && forall m :: m in remaining ==> DateLe(SortDate(files, io, n), SortDate(files, io, m));
        order := order + [n];
        remaining := remaining - {n};
      }
    }

    /**
     * getCacheSize: the sizes summed along the listing, stopping at the
     * first file whose attributes cannot be read; 0 if the directory
     * cannot be listed. Without faults it is the size of the whole cache.
     */
    method GetCacheSize(io: IoFaults) returns (total: int, listing: seq<string>)
      ensures io.listFails ==> listing == []
      ensures !io.listFails ==> IsListing(listing, files)
      ensures total == SumSizes(files, listing[..FirstIn(listing, io.statFails)])
      ensures 0 <= total <= TotalSize(files)
      ensures FaultFree(files, io) ==> total == TotalSize(files)
    {
      total := 0;
      if io.listFails {
        listing := [];
        return;
      }
      listing := ListDirectory();
      var i := 0;
      while i < |listing|
        invariant i <= FirstIn(listing, io.statFails)
        invariant total == SumSizes(files, listing[..i])
      {
        if listing[i] in io.statFails {
          break;
        }
        SumSizesStep(files, listing, i);
        total := total + SizeIn(files, listing[i]);
        i := i + 1;
      }
      PrefixSizeBound(listing, files, i);
    }

    // ------------------------------------------------------------ index updates

    /** addCachedImageURL */
    method AddCachedImageURL(url: string)
      modifies this`index
      ensures index == WithKey(old(index), url)
    {
      if url !in index {
        index := index + [url];
      }
    }

    /** removeCachedImageURLs */
    method RemoveCachedImageURLs(urls: seq<string>)
      modifies this`index
      ensures index == Without(old(index), urls)
    {
      index := Without(index, urls);
    }

    /** clearCachedImageURLs: the stored array is removed, so it reads back empty. */
    method ClearCachedImageURLs()
      modifies this`index
      ensures index == []
    {
      index := [];
    }

    // ------------------------------------------------------------ directory updates

    /**
     * saveImageToDisk: when encoding succeeds and the write does not throw,
     * the file for `key` holds the encoded bytes and `key` is in the
     * index; otherwise nothing changes.
     */
    method SaveImageToDisk(image: Image, key: string, encode: Image -> Option<Bytes>, writeOk: bool, now: int)
      modifies this`files, this`index
      ensures encode(image) != None && writeOk ==>
        && files == old(files)[FileName(key) := FileEntry(encode(image).value, Some(now))]
        && index == WithKey(old(index), key)
      ensures encode(image) == None || !writeOk ==> files == old(files) && index == old(index)
      ensures encode(image) != None && writeOk ==>
        StoredBytes(key) == encode(image) && key in index
    {
      var jpeg := encode(image);
      if jpeg == None {
        return;
      }
      if writeOk {
        files := files[FileName(key) := FileEntry(jpeg.value, Some(now))];
        AddCachedImageURL(key);
      }
    }

    /**
     * clearAllCache: removes the listed files one by one; a removal that
     * throws ends the pass and leaves the index as it was.
     */
    method ClearAllCache(io: IoFaults) returns (listing: seq<string>)
      modifies this`files, this`index
      ensures io.listFails ==> listing == []
      ensures !io.listFails ==> IsListing(listing, old(files))
      ensures files == old(files) - Elements(listing[..FirstIn(listing, io.removeFails)])
      ensures index == if !io.listFails && FirstIn(listing, io.removeFails) == |listing| then [] else old(index)
      ensures FaultFree(old(files), io) ==> files == map[] && index == []
    {
      if io.listFails {
        listing := [];
        assert old(files) - Elements([]) == old(files);
        return;
      }
      listing := ListDirectory();
      var i := 0;
      while i < |listing|
        invariant 0 <= i <= |listing|
        invariant forall j :: 0 <= j < i ==> listing[j] !in io.removeFails
        invariant files == old(files) - Elements(listing[..i])
        invariant index == old(index)
      {
        if listing[i] in io.removeFails {
          return;
        }
        assert Elements(listing[..i + 1]) == Elements(listing[..i]) + {listing[i]} by {
          assert listing[..i + 1] == listing[..i] + [listing[i]];
        }
        files := files - {listing[i]};
        i := i + 1;
      }
      assert listing[..i] == listing;
      ClearCachedImageURLs();
    }

    /**
     * cleanOldCache: walks the listing, deleting every file whose creation
     * date is more than seven days before `now`; afterwards the keys
     * recovered from their names are dropped from the index. A throwing
     * call ends the walk and leaves the index as it was.
     */
    method CleanOldCache(now: int, io: IoFaults) returns (listing: seq<string>)
      modifies this`files, this`index
      ensures io.listFails ==> listing == []
      ensures !io.listFails ==> IsListing(listing, old(files))
      ensures var done := listing[..FirstIn(listing, AgeFaults(old(files), now, io))];
        files == old(files) - Elements(ExpiredNames(old(files), done, now))
      ensures var expired := ExpiredNames(old(files), listing, now);
        index == if FirstIn(listing, AgeFaults(old(files), now, io)) == |listing| && expired != []
                 then Without(old(index), KeysOf(expired))
                 else old(index)
      ensures forall n :: n in files ==> n in old(files) && files[n] == old(files)[n]
      ensures forall n :: n in old(files) && n !in files ==> Expired(old(files)[n], now)
      ensures FaultFree(old(files), io) ==>
        forall n :: n in files <==> n in old(files) && !Expired(old(files)[n], now)
      ensures forall k :: k in index ==> k in old(index)
      ensures NoDuplicates(old(index)) ==> NoDuplicates(index)
    {
      if io.listFails {
        listing := [];
        assert old(files) - Elements([]) == old(files);
        return;
      }
      listing := ListDirectory();
      ghost var dir := files;
      var done, removedKeys := DeleteExpiredFiles(listing, now, io);
      if done == |listing| {
        assert listing[..done] == listing;
        if removedKeys != [] {
          RemoveCachedImageURLs(removedKeys);
        }
      }
      ExpiryOnlyDeletesExpired(dir, listing[..done], now);
      if FaultFree(dir, io) {
        ExpiryExact(dir, listing, now, io);
      }
    }

    /**
     * The loop of cleanOldCache: walks `listing`, deleting the expired
     * files, until the end or the first call that throws (at index `done`).
     * The keys recovered from the deleted names are returned in order.
     */
    method DeleteExpiredFiles(listing: seq<string>, now: int, io: IoFaults) returns (done: nat, removedKeys: seq<string>)
      requires NoDuplicates(listing) && forall n :: n in listing ==> n in files
      modifies this`files
      ensures done == FirstIn(listing, AgeFaults(old(files), now, io))
      ensures files == old(files) - Elements(ExpiredNames(old(files), listing[..done], now))
      ensures removedKeys == KeysOf(ExpiredNames(old(files), listing[..done], now))
    {
      ghost var dir := files;
      ghost var faults := AgeFaults(dir, now, io);
      removedKeys := [];
      done := 0;
      while done < |listing|
        invariant done <= FirstIn(listing, faults)
        invariant files == dir - Elements(ExpiredNames(dir, listing[..done], now))
        invariant removedKeys == KeysOf(ExpiredNames(dir, listing[..done], now))
      {
        var name := listing[done];
        if name in io.statFails {
          break;
        }
        ExpiryStep(dir, listing, done, now);
        var entry := files[name];
        if Expired(entry, now) {
          if name in io.removeFails {
            break;
          }
          files := files - {name};
          removedKeys := removedKeys + [StripJpg(name)];
        }
        done := done + 1;
      }
    }

    /**
     * cleanCacheIfNeeded: when the measured size exceeds 100 MiB, deletes
     * files oldest first until the bytes still to free (measured size minus
     * 75 MiB) drop to zero or below; a throwing call, the second listing
     * included, ends the pass. The index is never touched.
     */
    method CleanCacheIfNeeded(io: IoFaults) returns (currentSize: int, order: seq<string>, evicted: seq<string>)
      modifies this`files
      ensures 0 <= currentSize <= TotalSize(old(files))
      ensures FaultFree(old(files), io) ==> currentSize == TotalSize(old(files))
      ensures currentSize <= MaxCacheSize || io.relistFails ==> evicted == []
      ensures currentSize > MaxCacheSize && !io.relistFails ==>
        && IsListing(order, old(files))
        && SortedByDate(order, old(files), io)
        && evicted == EvictPlan(order, old(files), currentSize - EvictionTarget, io)
      ensures files == old(files) - Elements(evicted)
      ensures index == old(index)
      ensures FaultFree(old(files), io) && !io.relistFails && currentSize > MaxCacheSize ==>
        TotalSize(files) <= EvictionTarget
    {
      var listing;
      currentSize, listing := GetCacheSize(io);
      order, evicted := EvictIfOverLimit(currentSize, io);
    }

    /**
     * The part of cleanCacheIfNeeded after the size is measured: nothing
     * happens unless `currentSize` exceeds the maximum and the directory
     * can be listed again; then the files are sorted oldest first and
     * deleted until `currentSize` minus the target bytes are gone.
     */
    method EvictIfOverLimit(currentSize: int, io: IoFaults) returns (order: seq<string>, evicted: seq<string>)
      modifies this`files
      ensures currentSize <= MaxCacheSize || io.relistFails ==> evicted == []
      ensures currentSize > MaxCacheSize && !io.relistFails ==>
        && IsListing(order, old(files))
        && SortedByDate(order, old(files), io)
        && evicted == EvictPlan(order, old(files), currentSize - EvictionTarget, io)
      ensures files == old(files) - Elements(evicted)
      ensures FaultFree(old(files), io) && !io.relistFails && currentSize == TotalSize(old(files)) > MaxCacheSize ==>
        TotalSize(files) <= EvictionTarget
    {
      if currentSize > MaxCacheSize && !io.relistFails {
        order := SortedByCreationDate(io);
        var sizeToRemove := currentSize - EvictionTarget;
        evicted := DeleteOldestFiles(order, sizeToRemove, io);
        if FaultFree(old(files), io) && currentSize == TotalSize(old(files)) {
          EvictionReachesTarget(order, old(files), sizeToRemove, io);
        }
      } else {
        order, evicted := [], [];
        assert files == old(files) - Elements([]);
      }
    }

    /**
     * The loop of cleanCacheIfNeeded: walks `order`, deleting files and
     * counting their bytes off `sizeToRemove`, until that reaches zero or a
     * call throws.
     */
    method DeleteOldestFiles(order: seq<string>, sizeToRemove: int, io: IoFaults) returns (evicted: seq<string>)
      requires NoDuplicates(order)
      modifies this`files
      ensures evicted == EvictPlan(order, old(files), sizeToRemove, io)
      ensures files == old(files) - Elements(evicted)
    {
      ghost var dir := files;
      var remaining := sizeToRemove;
      var i := 0;
      evicted := [];
      assert order[0..] == order;
      while i < |order|
        invariant i <= |order|
        invariant evicted == order[..i]
        invariant files == dir - Elements(evicted)
        invariant EvictPlan(order, dir, sizeToRemove, io) == evicted + EvictPlan(order[i..], dir, remaining, io)
      {
        var name := order[i];
        if remaining <= 0 || name in io.statFails || name in io.removeFails {
          EvictPlanStops(order, dir, i, remaining, io);
          break;
        }
        var next := remaining - SizeIn(files, name);
        EvictStep(order, dir, i, remaining, next, io);
        remaining := next;
        files := files - {name};
        evicted := evicted + [name];
        i := i + 1;
      }
      if i == |order| {
        EvictPlanStops(order, dir, i, remaining, io);
      }
    }
  }
}

=== FILE: network_manager.dfy ===
/**
 * NetworkManager.swift: connectivity as last reported by the path monitor,
 * with a notification posted only when connectedness flips.
 */
module Network {
  import opened Wrappers

  /**
   * NWInterface.InterfaceType. `Unrecognised` stands for a case added to
   * the platform after this code was written (the `@unknown default` arm).
   */
  datatype InterfaceType = Wifi | Cellular | WiredEthernet | Loopback | Other | Unrecognised

  datatype PathStatus = Satisfied | Unsatisfied | RequiresConnection

  /** One update from the path monitor. */
  datatype Path = Path(status: PathStatus, availableInterfaces: seq<InterfaceType>)

  /**
   * InterfaceType.description. Every type has its own text, so
   * InterfaceNamed reads the type back.
   */
  function Description(t: InterfaceType): (s: string)
    ensures InterfaceNamed(s) == Some(t)
  {
    match t
    case Wifi => "WiFi"
    case Cellular => "Cellular"
    case WiredEthernet => "Ethernet"
    case Loopback => "Loopback"
    case Other => "Other"
    case Unrecognised => "Unknown"
  }

  /** The six description texts, read back; anything else is not one of them. */
  function InterfaceNamed(s: string): Option<InterfaceType> {
    if s == "WiFi" then Some(Wifi)
    else if s == "Cellular" then Some(Cellular)
    else if s == "Ethernet" then Some(WiredEthernet)
    else if s == "Loopback" then Some(Loopback)
    else if s == "Other" then Some(Other)
    else if s == "Unknown" then Some(Unrecognised)
    else None
  }

  /** `path.availableInterfaces.first?.type` */
  function FirstInterface(path: Path): (r: Option<InterfaceType>)
    ensures r == None <==> path.availableInterfaces == []
    ensures r != None ==> r.value == path.availableInterfaces[0]
  {
    if path.availableInterfaces == [] then None else Some(path.availableInterfaces[0])
  }

  class NetworkManager {
    var isConnected: bool
    var connectionType: Option<InterfaceType>
    /** "NetworkStatusChanged" notifications posted so far. */
    var notificationsPosted: nat

    /** Optimistic start: connected, no interface known, nothing posted. */
    constructor ()
      ensures isConnected && connectionType == None && notificationsPosted == 0
    {
      isConnected := true;
      connectionType := None;
      notificationsPosted := 0;
    }

    /**
     * pathUpdateHandler: the state follows the path, and a notification is
     * posted exactly when connectedness changed. A second update with the
     * same status therefore posts nothing.
     */
    method PathUpdate(path: Path) returns (posted: bool)
      modifies this
      ensures isConnected == (path.status == Satisfied)
      ensures connectionType == FirstInterface(path)
      ensures posted <==> old(isConnected) != isConnected
      ensures notificationsPosted == old(notificationsPosted) + (if posted then 1 else 0)
    {
      var wasConnected := isConnected;
      isConnected := path.status == Satisfied;
      connectionType := FirstInterface(path);
      posted := wasConnected != (path.status == Satisfied);
      if posted {
        notificationsPosted := notificationsPosted + 1;
      }
    }
  }

  /** Two updates with the same status: the second one posts nothing. */
  method RepeatedPathUpdate(network: NetworkManager, first: Path, second: Path)
    returns (postedFirst: bool, postedSecond: bool)
    requires first.status == second.status
    modifies network
    ensures !postedSecond
    ensures postedFirst <==> old(network.isConnected) != (first.status == Satisfied)
  {
    postedFirst := network.PathUpdate(first);
    postedSecond := network.PathUpdate(second);
  }
}

=== FILE: wrappers.dfy ===
/** The optional value used wherever the Swift code returns or stores an optional. */
module Wrappers {

  datatype Option<+T> = None | Some(value: T)
}
